=== FILE: README.md ===
# ChainedRequest in Dafny

A model of `ChainedRequest`, the chain executor of the request library: an
ordered list of sub-requests run strictly one at a time, with a cursor
`requestIndex`. The chain wraps the success and error closures of the
sub-request at the cursor. When that sub-request completes, the wrapped closure
first calls the caller's own closure. Then, depending on the outcome and on the
`ignoreErrors` flag, it either
- moves the cursor on and executes the next sub-request;
- finishes with the chain's success closure (empty body, empty data); or
- stops with the chain's error closure, unregisters from the manager and
  clears the list.

`execute` runs the first step and only then registers with the manager.
`cancel` cancels every sub-request still in the list and then the base class.

The asynchronous closure wiring is replaced by a pure state machine:
- Every operation (`Add`, `Then`, `Execute`, `Cancel`) and every completion of
  the awaited sub-request (`Complete`) maps a `ChainState` to the next state
  plus the effects it emits, in order.
- The effects are executing sub-request *i*, a caller closure, a terminal
  closure, register, unregister, and cancel.
- `Replay` folds a sequence of such inputs, and `Run` is a whole life:
  `execute` followed by completions.
- The theorems are stated over the effect log through projections: the
  executions, the terminal callbacks, and occurrence counts.

Files:
- `events.dfy`: requests, outcomes, effects, and the log projections.
- `chained_request.dfy`: the state and the operations.
- `steps.dfy`: single completions and the invariants.
- `traces.dfy`: a reference log written directly as a function of the requests
  and outcomes, and what such logs contain.
- `runs.dfy`: whole runs and the three quirks of the code.

## Model

| member | source | states |
|---|---|---|
| ChainedRequest.Add | Classes/ChainedRequest.swift:8-11 | the base class gets the request; `requests` grows by exactly that request at its end; earlier elements, the cursor and the flags are unchanged |
| ChainedRequest.Then | Classes/ChainedRequest.swift:15-18 | `then` hands the request to the base class and nothing else: the chain's state, `requests` included, is left exactly as it was |
| ChainedRequest.PassThrough | Classes/ChainedRequest.swift:23-34 | the caller's own closure saved at lines 23-24 fires at most once per completion: its success closure on success (line 28), its error closure on failure (line 34), and nothing when the matching closure is absent |
| ChainedRequest.ExecuteNext | Classes/ChainedRequest.swift:20-49 | with the cursor inside the list, the request at the cursor is executed and becomes the awaited one, nothing else changes; with the cursor at or past the end, the state is unchanged and the chain's success closure fires, then the manager unregisters the chain |
| ChainRuns.ThenOnlyBaseAdd | Classes/ChainedRequest.swift:15-18 | `then` has the same base-class effect as `add` but leaves the chain's state, requests included, as it was, whereas `add` extends `requests` |
| ChainRuns.ReplayBuild | Classes/ChainedRequest.swift:8-18 | any sequence of `add`/`then` calls appends exactly the `add`ed requests in call order, leaves cursor and flags alone, and passes every request of either kind to the base class in call order |
| ChainRuns.BuiltChain | Classes/ChainedRequest.swift:8-18 | a new chain built from `add` and `then` calls holds exactly the `add`ed requests in call order, with the cursor at the start, nothing awaited and nothing executed |
| ChainRuns.ThenNeverDispatched | Classes/ChainedRequest.swift:15-18 | running a chain built from `add` and `then` executes only requests passed to `add`, never one that was only passed to `then` |
| ChainedRequest.Complete | Classes/ChainedRequest.swift:26-43 | a completion with nothing awaited does nothing; an advancing completion moves the cursor by one and executes the next request, or fires the success closure then unregisters at the end; a fatal failure fires the caller's closure, then the chain's error closure, then unregisters, empties `requests` and keeps the cursor |
| ChainSteps.StepToNext | Classes/ChainedRequest.swift:26-31 | an advancing completion with requests left executes exactly the next request, fires no terminal callback, never talks to the manager, and awaits that request |
| ChainSteps.StepToEnd | Classes/ChainedRequest.swift:29-30 | an advancing completion of the last request fires the success closure once and unregisters once, in that order, moves the cursor past the last request and awaits nothing |
| ChainSteps.StepFatal | Classes/ChainedRequest.swift:38-42 | a failure with errors not ignored fires only the error closure, unregisters once, ends the log with those two, empties `requests` and leaves the cursor where it was |
| ChainSteps.IgnoredErrorContinues | Classes/ChainedRequest.swift:35-37 | with `ignoreErrors`, a failure leads to the same state as a success and emits the same effects except that the caller's error closure fires instead of its success closure |
| ChainSteps.PassThroughFirst | Classes/ChainedRequest.swift:28-30 | the caller's closure for the completed request fires first in the step, ahead of any execution, terminal callback or manager call, ignored errors included, and no other caller closure fires in that step |
| ChainSteps.ApplyIndex | Classes/ChainedRequest.swift:29 | `add`, `then` and `cancel` leave the cursor alone; a completion moves it by exactly one when it advances the chain and not at all otherwise; no operation moves it back |
| ChainSteps.DriveIndex | Classes/ChainedRequest.swift:36 | over any completions the cursor never decreases and moves by at most their number |
| ChainSteps.ReplayIndexMonotone | Classes/ChainedRequest.swift:29 | over any sequence of operations and completions the cursor never decreases |
| ChainSteps.DriveBounded | Classes/ChainedRequest.swift:21 | under any completions the cursor stays within `requests.count`, unless a fatal error emptied `requests`, in which case the error closure fired and nothing is awaited |
| ChainSteps.ReplayConsistent | Classes/ChainedRequest.swift:21-22 | whatever the inputs, the only sub-request the chain awaits is the one at its cursor, which is in range |
| ChainedRequest.Execute | Classes/ChainedRequest.swift:52-60 | returns the base check's verdict; if it fails, nothing happens; otherwise the first step runs (executing the request at the cursor, or reporting success and unregistering if none is left) and the registration comes last |
| ChainRuns.RunStart | Classes/ChainedRequest.swift:57-59 | after `execute` the log is the execution of the first request, then the registration, then whatever the completions drive |
| ChainRuns.RunEmpty | Classes/ChainedRequest.swift:45-48 | an empty chain that passes the base check logs success, unregister, register, in that order |
| ChainRuns.ExhaustedExecute | Classes/ChainedRequest.swift:45-59 | `execute` on a chain whose cursor is past its end (empty, or emptied by a fatal error) reports success again, unregisters, then registers, and changes no state |
| ChainRuns.SynchronousUnregisterFirst | Classes/ChainedRequest.swift:57-59 | when enough completions arrive inside `execute` and none that reaches the chain is fatal, the log ends with unregister followed by register, each exactly once, after exactly one success callback |
| ChainTraces.TraceAdvancing | Classes/ChainedRequest.swift:35-37 | when no completion fails, the `ignoreErrors` flag does not change the log |
| ChainRuns.DriveTrace | Classes/ChainedRequest.swift:20-49 | delivering completions to a waiting chain emits exactly the reference log of its requests and those outcomes |
| ChainRuns.DriveWaiting | Classes/ChainedRequest.swift:20-49 | a waiting chain still awaits a sub-request exactly when no terminal callback has fired |
| ChainRuns.DriveSucceeds | Classes/ChainedRequest.swift:20-37 | from the cursor, with enough completions, when every one that reaches the chain advances it (later ones find nothing pending and may be anything): the remaining requests run in order, the success closure fires once with no error closure, one unregistration ends the log, and the cursor ends at `requests.count` |
| ChainRuns.DriveFails | Classes/ChainedRequest.swift:38-42 | from the cursor, when request `k` fails first and errors are not ignored: requests up to `k` run in order and no later one runs, only the error closure fires, once, one unregistration ends the log, `requests` is emptied and the cursor stays at `k` |
| ChainRuns.DriveAtMostOnce | Classes/ChainedRequest.swift:20-49 | whatever the outcomes: executions continue in order, at most one terminal callback fires, unregistrations match it one for one, and the chain never registers |
| ChainRuns.AllSucceed | Classes/ChainedRequest.swift:20-30 | when each request's own completion succeeds or errors are ignored, whatever arrives after the last one: all requests run once each in append order, one success callback (empty body and data) and no error callback, one register and one unregister, the log ends with success then unregister, and the cursor ends at the end |
| ChainRuns.FatalError | Classes/ChainedRequest.swift:38-42 | when request `k` fails first and errors are not ignored: requests `0..k` run in order and later ones never, one error callback and no success callback, one register and one unregister, `requests` empty with the cursor at `k`, and a later `cancel` cancels no sub-request |
| ChainRuns.DriveShort | Classes/ChainedRequest.swift:26-37 | from the cursor, fewer completions than requests left, each advancing: the cursor moves once per completion and a request is still pending |
| ChainRuns.ShortRunWaits | Classes/ChainedRequest.swift:20-60 | a run with fewer completions than requests, none fatal, has fired no terminal callback, still awaits a request and has moved its cursor once per completion |
| ChainRuns.AtMostOneTerminal | Classes/ChainedRequest.swift:20-60 | for any outcomes, a run executes requests in append order, fires at most one terminal callback, unregisters exactly as often, registers once, and is still waiting exactly when no terminal callback fired |
| ChainRuns.RunSent | Classes/ChainedRequest.swift:21-22 | a run only ever executes requests held in `requests` |
| ChainedRequest.CancelAll | Classes/ChainedRequest.swift:64-66 | one cancellation per held request, in list order |
| ChainedRequest.Cancel | Classes/ChainedRequest.swift:63-67 | every request in `requests` is cancelled, in order, then the base class; the state is unchanged |
| ChainRuns.CancelDoesNotStopChain | Classes/ChainedRequest.swift:63-67 | a chain cancelled right after `execute` cancels every request and still runs to the end, firing its success closure, when the cancelled requests go on completing successfully (completions after the last request may be anything) |
| ChainSteps.ReplayConcat | Classes/ChainedRequest.swift:8-67 | replaying two input sequences one after the other is replaying their concatenation |
| ChainSteps.ReplayCompletions | Classes/ChainedRequest.swift:26-43 | completions delivered as inputs are the completions driven one after another |

## Left out

- `CompoundRequest` is not part of this model. The following are parameters or
  logged effects with no meaning attached:
  - what `super.execute()` checks (the parameter `baseOk`);
  - what `super.add` and `super.cancel` do (`BaseAdd`, `BaseCancel`);
  - the manager (`Register`, `Unregister`).
- `HttpRequest` transport is not modelled. A sub-request is an identity plus
  whether the caller had attached a success and an error closure. A completion
  is an input outcome, `Succeeded` or `Failed`.
- Closure payloads are not modelled: the body, data, response, error and
  context values. The one exception is the empty body and empty data of the
  chain's success callback.
- The chain's own closures are optional in the source. `ChainSuccess` and
  `ChainError` record the point where the chain calls them, which does nothing
  when they are not set.
- Weak self capture is not modelled, because the model has no deallocation:
  a completion arriving after the chain is gone would do nothing.
- Threading and races between completions and `cancel` are not modelled. The
  model is a sequential sequence of inputs.
- Completions are modelled only for the sub-request the chain currently awaits
  (`pending`), once each. In the model any other completion is a no-op. The
  code differs: the wrapped closures installed at
  Classes/ChainedRequest.swift:26 and :32 are never removed and nothing
  guards them. A sub-request that reports a second
  completion runs its wrapper again:
  - a second success of the last request moves `requestIndex` past the end
    and fires the chain's success closure and `unregisterRequest` once more;
  - a second failure with errors not ignored fires the chain's error closure
    and `unregisterRequest` once more.
  The at-most-once results (`DriveAtMostOnce`, `AtMostOneTerminal`) therefore
  hold only when each sub-request reports at most one completion.
- Closure aliasing is not modelled. The source captures the closures currently
  installed on a request before wrapping them, so the following cases would
  wrap an already-wrapped closure:
  - the same request object added twice;
  - a request re-executed while still pending.
- `ignoreErrors` is treated as fixed during a run. It is a base-class property
  that callers could change between completions.
- AllSucceed: states the all-success case only for outcome sequences long
  enough to reach the end of the chain. With fewer completions the chain is
  still waiting, which `ShortRunWaits` states.

## Where the code is looser than a caller might expect

The model follows the code in each case below.
- A caller might expect `then` to behave like `add`. The code does not append
  to `requests`: it only hands the request to the base class. The chain's own
  walk through `requests` never executes such a request
  (`ThenNeverDispatched`), and the chain's own cancel loop never cancels it.
  What the base class does with these requests is not modelled.
- A caller might expect the chain to be registered exactly while it is
  running. The code registers only after the whole first step. Synchronous
  completions, or an empty chain, therefore unregister before registering,
  so the chain's last call to the manager is a registration
  (`SynchronousUnregisterFirst`, `RunEmpty`).
- A caller might expect at most one terminal callback whatever the
  sub-requests do. The code has no guard, so `AtMostOneTerminal` assumes each
  sub-request reports one completion.
- A caller might expect `cancel` to stop the chain. The code sets no flag that
  in-flight completions check, so a cancelled chain still runs on and fires
  its terminal callback (`CancelDoesNotStopChain`).
- A caller might expect `cancel` to reach every request ever added. The
  code's cancel loop walks `requests` only:
  - after a fatal error that list is empty and no sub-request is cancelled by
    the loop (`FatalError`);
  - requests passed to `then` are never in the list.
- A caller might expect the cursor to stay within `0 <= cursor <= count`. A
  fatal error at request `k >= 1` empties the list but keeps the cursor at
  `k`, so the bound breaks (`DriveBounded`).
- A caller might expect a second `execute` to have no effect. The code leaves
  that to `super.execute()` alone. When that check passes, a chain whose
  cursor is past its end, including one emptied by a fatal error, reports
  success again (`ExhaustedExecute`).
- A caller might expect `execute` to refuse an empty chain. The code again
  leaves that to `super.execute()`. When that check passes, an empty chain
  reports success at once (`RunEmpty`).

=== FILE: chained_request.dfy ===
/** The chained request: an ordered list of sub-requests run strictly one at a
    time, where each completion decides whether the chain advances, finishes
    with its own success closure, or stops with its own error closure.

    The asynchronous closure wiring of the Swift class `ChainedRequest` is
    replaced by explicit
    transitions: every operation maps a state to the next state plus the
    effects it emits, and a completion of the currently executing sub-request
    is an input like any other.
 */
module ChainedRequest {
  import opened Events

  datatype Option<T> = None | Some(value: T)

  /** `requests` and `index` are the chain's own fields; `ignoreErrors` is the
      flag of the compound base class. `pending` is not a field of the
      Swift class: it records which sub-request currently holds the closures the
      chain installed, i.e. whose completion the chain is waiting for. */
  datatype ChainState = ChainState(
    requests: seq<Request>,
    index: nat,
    ignoreErrors: bool,
    pending: Option<Request>)

  /** The state after an operation and the effects it emitted, in order. */
  datatype Transition = Transition(chain: ChainState, events: seq<Event>)

  /** A newly constructed chain. */
  function Fresh(ignoreErrors: bool): ChainState
  {
    ChainState([], 0, ignoreErrors, None)
  }

  /** Every sub-request the chain waits for is the one at the cursor. */
  predicate Consistent(c: ChainState)
  {
    c.pending.Some? ==> c.index < |c.requests| && c.pending.value == c.requests[c.index]
  }

  /** `add`: hands the request to the base class's `add`, then appends to `requests`. */
  function Add(c: ChainState, r: Request): (t: Transition)
    ensures |t.chain.requests| == |c.requests| + 1
    ensures t.chain.requests[|c.requests|] == r
    ensures t.chain.requests[..|c.requests|] == c.requests
    ensures t.chain.index == c.index && t.chain.pending == c.pending
    ensures t.chain.ignoreErrors == c.ignoreErrors
    ensures t.events == [BaseAdd(r)]
  {
    Transition(c.(requests := c.requests + [r]), [BaseAdd(r)])
  }

  /** `then`: hands the request to the base class's `add` only; `requests` is not extended. */
  function Then(c: ChainState, r: Request): (t: Transition)
    ensures t.chain == c
    ensures t.events == [BaseAdd(r)]
  {
    Transition(c, [BaseAdd(r)])
  }

  /** The captured caller closure that a completion with outcome `o` fires. */
  function PassThrough(r: Request, o: Outcome): (es: seq<Event>)
    ensures |es| <= 1
    ensures es != [] <==> (if o == Succeeded then r.hasSuccess else r.hasError)
    ensures forall e :: e in es ==> e == (if o == Succeeded then PassSuccess(r) else PassError(r))
  {
    match o
    case Succeeded => if r.hasSuccess then [PassSuccess(r)] else []
    case Failed => if r.hasError then [PassError(r)] else []
  }

  /** `executeNext`: execute the sub-request at the cursor, or, once the cursor
      has passed the end, fire the chain's success closure with an empty body
      and empty data and unregister from the manager. */
  function ExecuteNext(c: ChainState): (t: Transition)
    ensures c.index < |c.requests| ==>
      && t.events == [Dispatch(c.index, c.requests[c.index])]
      && t.chain == c.(pending := Some(c.requests[c.index]))
    ensures c.index >= |c.requests| ==> t.chain == c && t.events == [Done, Unregister]
  {
    if c.index < |c.requests| then
      Transition(c.(pending := Some(c.requests[c.index])), [Dispatch(c.index, c.requests[c.index])])
    else
      Transition(c, [Done, Unregister])
  }

  /** Whether a completion with outcome `o` moves the cursor on. */
  predicate Advances(c: ChainState, o: Outcome)
  {
    o == Succeeded || c.ignoreErrors
  }

  /** The wrapped closure of the pending sub-request, fired with outcome `o`.
      Without a pending sub-request nothing holds a wrapped closure, so nothing
      happens. */
  function Complete(c: ChainState, o: Outcome): (t: Transition)
    ensures c.pending.None? ==> t == Transition(c, [])
    ensures c.pending.Some? && Advances(c, o) ==>
      t.chain == c.(index := c.index + 1, pending := t.chain.pending)
    ensures c.pending.Some? && Advances(c, o) && c.index + 1 < |c.requests| ==>
      && t.events == PassThrough(c.pending.value, o) + [Dispatch(c.index + 1, c.requests[c.index + 1])]
      && t.chain.pending == Some(c.requests[c.index + 1])
    ensures c.pending.Some? && Advances(c, o) && c.index + 1 >= |c.requests| ==>
      t.events == PassThrough(c.pending.value, o) + [Done, Unregister] && t.chain.pending.None?
    ensures c.pending.Some? && !Advances(c, o) ==>
      && t.events == PassThrough(c.pending.value, o) + [ChainError, Unregister]
      && t.chain == c.(requests := [], pending := None)
  {
    match c.pending
    case None => Transition(c, [])
    case Some(r) =>
      var pass := PassThrough(r, o);
      var settled := c.(pending := None);
      if Advances(c, o) then
        var next := ExecuteNext(settled.(index := c.index + 1));
        Transition(next.chain, pass + next.events)
      else
        Transition(settled.(requests := []), pass + [ChainError, Unregister])
  }

  /** The completions `outs` delivered one after another. */
  function Drive(c: ChainState, outs: seq<Outcome>): Transition
    decreases |outs|
  {
    if outs == [] then Transition(c, [])
    else
      var step := Complete(c, outs[0]);
      var rest := Drive(step.chain, outs[1..]);
      Transition(rest.chain, step.events + rest.events)
  }

  /** `execute`: when the base class's own check `baseOk` fails, return false
      and do nothing; otherwise run `executeNext`, then register with the
      manager and return true. `sync` are the completions that arrive
      synchronously while the first sub-request is being executed, i.e. before
      the registration. */
  function Execute(c: ChainState, baseOk: bool, sync: seq<Outcome>): (res: (bool, Transition))
    ensures res.0 == baseOk
    ensures !baseOk ==> res.1 == Transition(c, [])
    ensures baseOk ==> |res.1.events| >= 2 && res.1.events[|res.1.events| - 1] == Register
    ensures baseOk && c.index < |c.requests| ==>
      res.1.events[0] == Dispatch(c.index, c.requests[c.index])
    ensures baseOk && c.index >= |c.requests| ==> res.1.events[..2] == [Done, Unregister]
    ensures baseOk && sync == [] && c.index < |c.requests| ==>
      && res.1.events == [Dispatch(c.index, c.requests[c.index]), Register]
      && res.1.chain == c.(pending := Some(c.requests[c.index]))
  {
    if !baseOk then (false, Transition(c, []))
    else
      var first := ExecuteNext(c);
      var inline := Drive(first.chain, sync);
      (true, Transition(inline.chain, first.events + inline.events + [Register]))
  }

  /** `cancel` on each sub-request, in order. */
  function CancelAll(rs: seq<Request>): (es: seq<Event>)
    ensures |es| == |rs|
    ensures forall i :: 0 <= i < |rs| ==> es[i] == CancelSub(rs[i])
  {
    if rs == [] then [] else [CancelSub(rs[0])] + CancelAll(rs[1..])
  }

  /** `cancel`: cancels every sub-request still in `requests`, in order, then
      the base class. No state changes: nothing marks the chain as cancelled. */
  function Cancel(c: ChainState): (t: Transition)
    ensures t.chain == c
    ensures |t.events| == |c.requests| + 1 && t.events[|c.requests|] == BaseCancel
    ensures forall i :: 0 <= i < |c.requests| ==> t.events[i] == CancelSub(c.requests[i])
  {
    Transition(c, CancelAll(c.requests) + [BaseCancel])
  }

  /** Everything that can happen to a chain: a call of one of its public
      operations, or the completion of the sub-request it is waiting for. */
  datatype Input =
    | AddCall(r: Request)
    | ThenCall(r: Request)
    | ExecuteCall(baseOk: bool, sync: seq<Outcome>)
    | Completion(o: Outcome)
    | CancelCall

  function Apply(c: ChainState, input: Input): Transition
  {
    match input
    case AddCall(r) => Add(c, r)
    case ThenCall(r) => Then(c, r)
    case ExecuteCall(baseOk, sync) => Execute(c, baseOk, sync).1
    case Completion(o) => Complete(c, o)
    case CancelCall => Cancel(c)
  }

  /** The inputs delivered one after another, each through `step`. */
  function Fold(step: (ChainState, Input) -> Transition, c: ChainState, inputs: seq<Input>): Transition
    decreases |inputs|
  {
    if inputs == [] then Transition(c, [])
    else
      var first := step(c, inputs[0]);
      var rest := Fold(step, first.chain, inputs[1..]);
      Transition(rest.chain, first.events + rest.events)
  }

  function Replay(c: ChainState, inputs: seq<Input>): Transition
  {
    Fold(Apply, c, inputs)
  }

  function Completions(outs: seq<Outcome>): (ins: seq<Input>)
    ensures |ins| == |outs|
    ensures forall i :: 0 <= i < |outs| ==> ins[i] == Completion(outs[i])
  {
    seq(|outs|, i requires 0 <= i < |outs| => Completion(outs[i]))
  }

  /** The life of a chain holding `rs`: executed once (the base check passing,
      no synchronous completion), then fed the completions `outs`. */
  function Run(rs: seq<Request>, ignoreErrors: bool, outs: seq<Outcome>): Transition
  {
    Replay(ChainState(rs, 0, ignoreErrors, None), [ExecuteCall(true, [])] + Completions(outs))
  }
}

=== FILE: events.dfy ===
/** The observable effects of a chained request, and projections of an effect log.

    A run of the chain is described by the sequence of effects it emits: which
    sub-request it executes, which caller closures fire, when it talks to the
    request manager and whom it cancels. The theorems about the chain are stated
    over such logs through the projections defined here.
 */
module Events {

  /** A sub-request as the chain sees it: an identity, and whether the caller had
      attached its own success / error closure before the chain wrapped them. */
  datatype Request = Request(id: nat, hasSuccess: bool, hasError: bool)

  /** How one executed sub-request completed. */
  datatype Outcome = Succeeded | Failed

  datatype Event =
    | BaseAdd(added: Request)                    // the compound base class's `add`
    | Dispatch(index: nat, sent: Request)        // `requests[index]` wrapped and executed
    | PassSuccess(owner: Request)                // the captured success closure of `owner`
    | PassError(owner: Request)                  // the captured error closure of `owner`
    | ChainSuccess(body: string, data: seq<bv8>) // the chain's own success closure
    | ChainError                                 // the chain's own error closure
    | Register                                   // the manager registers the chain
    | Unregister                                 // the manager unregisters the chain
    | CancelSub(cancelled: Request)              // `cancel` on a held sub-request
    | BaseCancel                                 // the compound base class's `cancel`

  /** The kinds of events the theorems project a log onto. */
  datatype Selector = DispatchEvents | TerminalEvents

  predicate Selects(p: Selector, e: Event)
  {
    if p.DispatchEvents? then e.Dispatch? else e.ChainSuccess? || e.ChainError?
  }

  /** The events of `es` that `p` selects, in log order. */
  function Filter(es: seq<Event>, p: Selector): seq<Event>
  {
    if es == [] then [] else (if Selects(p, es[0]) then [es[0]] else []) + Filter(es[1..], p)
  }

  lemma {:induction false} FilterConcat(a: seq<Event>, b: seq<Event>, p: Selector)
    ensures Filter(a + b, p) == Filter(a, p) + Filter(b, p)
    decreases |a|
  {
    if a == [] {
      assert a + b == b;
    } else {
      assert (a + b)[0] == a[0];
      assert (a + b)[1..] == a[1..] + b;
      FilterConcat(a[1..], b, p);
    }
  }

  /** A log none of whose events satisfies `p` projects to nothing. */
  lemma {:induction false} FilterNone(es: seq<Event>, p: Selector)
    requires forall i :: 0 <= i < |es| ==> !Selects(p, es[i])
    ensures Filter(es, p) == []
    decreases |es|
  {
    if es != [] {
      assert forall i :: 0 <= i < |es[1..]| ==> es[1..][i] == es[i + 1];
      FilterNone(es[1..], p);
    }
  }

  lemma FilterOne(e: Event, p: Selector)
    ensures Filter([e], p) == if Selects(p, e) then [e] else []
  {
    assert [e][1..] == [];
  }

  /** The sub-request executions of a log, in order. */
  function Dispatches(es: seq<Event>): seq<Event> { Filter(es, DispatchEvents) }

  /** The chain-level (terminal) callbacks of a log, in order. */
  function Terminals(es: seq<Event>): seq<Event> { Filter(es, TerminalEvents) }

  /** How many times `e` occurs in `es`. */
  function Occurrences(es: seq<Event>, e: Event): nat { multiset(es)[e] }

  /** The terminal success as the chain emits it: an empty body and empty data. */
  const Done: Event := ChainSuccess("", [])

  predicate EndsWith(es: seq<Event>, tail: seq<Event>)
  {
    |es| >= |tail| && es[|es| - |tail|..] == tail
  }

  /** The executions of `rs[lo]`, ..., `rs[hi - 1]`, in that order, each
      tagged with its position in `rs`. */
  function DispatchRun(rs: seq<Request>, lo: nat, hi: nat): seq<Event>
    requires lo <= hi <= |rs|
    decreases hi - lo
  {
    if lo == hi then [] else [Dispatch(lo, rs[lo])] + DispatchRun(rs, lo + 1, hi)
  }

  /** Element `j` of the run is the execution of `rs[lo + j]` at position `lo + j`. */
  lemma {:induction false} DispatchRunIndex(rs: seq<Request>, lo: nat, hi: nat)
    requires lo <= hi <= |rs|
    ensures |DispatchRun(rs, lo, hi)| == hi - lo
    ensures forall j :: 0 <= j < hi - lo ==> DispatchRun(rs, lo, hi)[j] == Dispatch(lo + j, rs[lo + j])
    decreases hi - lo
  {
    if lo < hi {
      DispatchRunIndex(rs, lo + 1, hi);
      var run := DispatchRun(rs, lo, hi);
      forall j | 0 <= j < hi - lo
        ensures run[j] == Dispatch(lo + j, rs[lo + j])
      {
        if j > 0 {
          assert run[j] == DispatchRun(rs, lo + 1, hi)[j - 1];
        }
      }
    }
  }

  /** Two consecutive runs make one. */
  lemma {:induction false} DispatchRunJoin(rs: seq<Request>, lo: nat, mid: nat, hi: nat)
    requires lo <= mid <= hi <= |rs|
    ensures DispatchRun(rs, lo, mid) + DispatchRun(rs, mid, hi) == DispatchRun(rs, lo, hi)
    decreases mid - lo
  {
    if lo < mid {
      DispatchRunJoin(rs, lo + 1, mid, hi);
      assert [Dispatch(lo, rs[lo])] + DispatchRun(rs, lo + 1, mid) + DispatchRun(rs, mid, hi)
          == [Dispatch(lo, rs[lo])] + (DispatchRun(rs, lo + 1, mid) + DispatchRun(rs, mid, hi));
    }
  }

  /** The executions in `es` are exactly those of `rs[lo]`, ..., `rs[hi - 1]`,
      in that order. */
  predicate DispatchedInOrder(es: seq<Event>, rs: seq<Request>, lo: nat, hi: nat)
    requires lo <= hi <= |rs|
  {
    Dispatches(es) == DispatchRun(rs, lo, hi)
  }

  /** Two consecutive stretches of in-order executions make one. */
  lemma DispatchedJoin(a: seq<Event>, b: seq<Event>, rs: seq<Request>, lo: nat, mid: nat, hi: nat)
    requires lo <= mid <= hi <= |rs|
    requires DispatchedInOrder(a, rs, lo, mid)
    requires DispatchedInOrder(b, rs, mid, hi)
    ensures DispatchedInOrder(a + b, rs, lo, hi)
  {
    FilterConcat(a, b, DispatchEvents);
    DispatchRunJoin(rs, lo, mid, hi);
  }
}

=== FILE: runs.dfy ===
/** Properties of whole runs of the chained request: what a run emits when
    everything succeeds, when an error is fatal and when errors are ignored,
    for any outcomes at all, and the consequences of the three places where
    the code is looser than a caller might expect (`then`, the late
    registration and the unguarded `cancel`).
 */
module ChainRuns {
  import opened Events
  import opened ChainedRequest
  import opened ChainSteps
  import opened ChainTraces

  // ---------------------------------------------------------------------
  // Building the chain

  /** The requests that the `add` calls among `inputs` append, in order. */
  function Appended(inputs: seq<Input>): seq<Request>
  {
    if inputs == [] then []
    else (if inputs[0].AddCall? then [inputs[0].r] else []) + Appended(inputs[1..])
  }

  predicate Builder(input: Input) { input.AddCall? || input.ThenCall? }

  /** A sequence of `add` and `then` calls appends exactly the `add`ed requests,
      in call order, leaves the cursor and flags alone, and hands every request
      of either kind to the base class, in call order. */
  lemma {:induction false} ReplayBuild(c: ChainState, inputs: seq<Input>)
    requires forall i :: 0 <= i < |inputs| ==> Builder(inputs[i])
    ensures Replay(c, inputs).chain == c.(requests := c.requests + Appended(inputs))
    ensures |Replay(c, inputs).events| == |inputs|
    ensures forall i :: 0 <= i < |inputs| && Builder(inputs[i]) ==>
      Replay(c, inputs).events[i] == BaseAdd(inputs[i].r)
    decreases |inputs|
  {
    if inputs == [] {
      assert c.requests + [] == c.requests;
    } else {
      var step := Apply(c, inputs[0]);
      assert forall i :: 0 <= i < |inputs[1..]| ==> inputs[1..][i] == inputs[i + 1];
      ReplayBuild(step.chain, inputs[1..]);
      assert c.requests + Appended(inputs) == step.chain.requests + Appended(inputs[1..]);
    }
  }

  /** `then` hands its request to the base class exactly as `add` does, but
      leaves the chain's own requests, cursor and flags as they were, where
      `add` extends them. */
  lemma ThenOnlyBaseAdd(c: ChainState, r: Request)
    ensures Then(c, r).events == Add(c, r).events == [BaseAdd(r)]
    ensures Then(c, r).chain == c
    ensures Add(c, r).chain.requests == c.requests + [r] != Then(c, r).chain.requests
  {
  }

  // ---------------------------------------------------------------------
  // The start of a run

  /** After `execute`, the first sub-request is executed and the chain then
      registers; everything after that is driven by completions. */
  lemma RunStart(rs: seq<Request>, ignoreErrors: bool, outs: seq<Outcome>)
    requires |rs| >= 1
    ensures var d := Drive(ChainState(rs, 0, ignoreErrors, Some(rs[0])), outs);
      Run(rs, ignoreErrors, outs) == Transition(d.chain, [Dispatch(0, rs[0]), Register] + d.events)
  {
    var c := ChainState(rs, 0, ignoreErrors, None);
    ReplayConcat(c, [ExecuteCall(true, [])], Completions(outs));
    ReplayCompletions(c.(pending := Some(rs[0])), outs);
  }

  lemma StartLog(rs: seq<Request>)
    requires |rs| >= 1
    ensures DispatchedInOrder([Dispatch(0, rs[0]), Register], rs, 0, 1)
    ensures Terminals([Dispatch(0, rs[0]), Register]) == []
  {
    var h := [Dispatch(0, rs[0]), Register];
    assert h == [Dispatch(0, rs[0])] + [Register];
    FilterConcat([Dispatch(0, rs[0])], [Register], DispatchEvents);
    FilterConcat([Dispatch(0, rs[0])], [Register], TerminalEvents);
    FilterOne(Dispatch(0, rs[0]), DispatchEvents);
    FilterOne(Dispatch(0, rs[0]), TerminalEvents);
    FilterOne(Register, DispatchEvents);
    FilterOne(Register, TerminalEvents);
  }

  /** An empty chain that passes the base check reports success at once, then
      unregisters, and only then registers. */
  lemma RunEmpty(ignoreErrors: bool, outs: seq<Outcome>)
    ensures Run([], ignoreErrors, outs).events == [Done, Unregister, Register]
  {
    var c := ChainState([], 0, ignoreErrors, None);
    ReplayConcat(c, [ExecuteCall(true, [])], Completions(outs));
    ReplayCompletions(c, outs);
    DriveIdle(c, outs);
    DriveIdle(c, []);
  }

  // ---------------------------------------------------------------------
  // Completions delivered to a waiting chain

  /** Driving a chain that waits for the sub-request at its cursor emits the
      reference log of its requests and the outcomes. */
  lemma {:induction false} DriveTrace(c: ChainState, outs: seq<Outcome>)
    requires Consistent(c) && c.pending.Some?
    ensures Drive(c, outs).events == Trace(c.requests, c.index, c.ignoreErrors, outs)
    decreases |outs|
  {
    if outs != [] {
      var step := Complete(c, outs[0]);
      if Advances(c, outs[0]) && c.index + 1 < |c.requests| {
        DriveTrace(step.chain, outs[1..]);
      } else {
        DriveIdle(step.chain, outs[1..]);
      }
    }
  }

  /** The chain is still waiting for a sub-request exactly when no terminal
      callback has fired. */
  lemma {:induction false} DriveWaiting(c: ChainState, outs: seq<Outcome>)
    requires Consistent(c) && c.pending.Some?
    ensures var t := Drive(c, outs);
      t.chain.pending.Some? <==> Terminals(t.events) == []
    decreases |outs|
  {
    if outs != [] {
      var o := outs[0];
      var step := Complete(c, o);
      var rest := Drive(step.chain, outs[1..]);
      FilterConcat(step.events, rest.events, TerminalEvents);
      if Advances(c, o) && c.index + 1 < |c.requests| {
        StepToNext(c, o);
        DriveWaiting(step.chain, outs[1..]);
      } else {
        if Advances(c, o) {
          StepToEnd(c, o);
        } else {
          StepFatal(c);
        }
        DriveIdle(step.chain, outs[1..]);
      }
    }
  }

  /** When every completion advances but there are fewer of them than
      requests left after the cursor, each one moves the cursor by one and a
      sub-request is still pending. */
  lemma {:induction false} DriveShort(c: ChainState, outs: seq<Outcome>)
    requires Consistent(c) && c.pending.Some?
    requires |outs| < |c.requests| - c.index
    requires c.ignoreErrors || Failed !in outs
    ensures Drive(c, outs).chain.pending.Some?
    ensures Drive(c, outs).chain.index == c.index + |outs|
    decreases |outs|
  {
    if outs != [] {
      assert outs == [outs[0]] + outs[1..];
      var step := Complete(c, outs[0]);
      StepToNext(c, outs[0]);
      DriveShort(step.chain, outs[1..]);
    }
  }

  /** When every completion advances and there are enough of them, the cursor
      ends past the last request and nothing is pending. */
  lemma {:induction false} DriveFinishes(c: ChainState, outs: seq<Outcome>)
    requires Consistent(c) && c.pending.Some?
    requires |outs| >= |c.requests| - c.index
    requires c.ignoreErrors || Failed !in outs
    ensures Drive(c, outs).chain == c.(index := |c.requests|, pending := None)
    decreases |c.requests| - c.index
  {
    var step := Complete(c, outs[0]);
    assert outs == [outs[0]] + outs[1..];
    if c.index + 1 < |c.requests| {
      DriveFinishes(step.chain, outs[1..]);
    } else {
      DriveIdle(step.chain, outs[1..]);
    }
  }

  /** When errors are not ignored and the completion of `requests[k]` is the
      first that fails, `requests` ends up empty, the cursor at `k` and nothing
      pending. */
  lemma {:induction false} DriveStops(c: ChainState, outs: seq<Outcome>, k: nat)
    requires Consistent(c) && c.pending.Some? && !c.ignoreErrors
    requires c.index <= k < |c.requests| && k - c.index < |outs|
    requires Failed !in outs[..k - c.index] && outs[k - c.index] == Failed
    ensures Drive(c, outs).chain == c.(requests := [], index := k, pending := None)
    decreases k - c.index
  {
    var step := Complete(c, outs[0]);
    if k == c.index {
      DriveIdle(step.chain, outs[1..]);
    } else {
      assert outs[0] == outs[..k - c.index][0];
      assert outs[1..][..k - (c.index + 1)] == outs[..k - c.index][1..];
      DriveStops(step.chain, outs[1..], k);
    }
  }

  /** Whatever a log that ended says of the reference log, it says of the
      chain's own log. */
  lemma DriveEnded(c: ChainState, outs: seq<Outcome>, lo: nat, hi: nat, x: Event)
    requires Consistent(c) && c.pending.Some? && lo <= hi <= |c.requests|
    requires Ended(Trace(c.requests, c.index, c.ignoreErrors, outs), c.requests, lo, hi, x)
    ensures Ended(Drive(c, outs).events, c.requests, lo, hi, x)
  {
    DriveTrace(c, outs);
    EndedSame(Drive(c, outs).events, Trace(c.requests, c.index, c.ignoreErrors, outs), c.requests, lo, hi, x);
  }

  /** From the sub-request at the cursor, when there are enough completions
      and every one that reaches the chain advances (none fails, or errors are
      ignored; completions after the last request find nothing pending and
      may be anything): the remaining sub-requests are executed in order, the
      chain ends with its success closure and unregisters once, and the cursor
      ends past the last request with nothing pending. */
  lemma {:induction false} DriveSucceeds(c: ChainState, outs: seq<Outcome>)
    requires Consistent(c) && c.pending.Some?
    requires |outs| >= |c.requests| - c.index
    requires c.ignoreErrors || Failed !in outs[..|c.requests| - c.index]
    ensures Ended(Drive(c, outs).events, c.requests, c.index + 1, |c.requests|, Done)
    ensures Drive(c, outs).chain == c.(index := |c.requests|, pending := None)
  {
    var m := |c.requests| - c.index;
    DriveThroughEnd(c, outs[..m]);
    DriveAfterIdle(c, outs, m);
  }

  /** `DriveSucceeds` for exactly as many completions as there are requests
      left from the cursor. */
  lemma DriveThroughEnd(c: ChainState, outs: seq<Outcome>)
    requires Consistent(c) && c.pending.Some?
    requires |outs| == |c.requests| - c.index
    requires c.ignoreErrors || Failed !in outs
    ensures Ended(Drive(c, outs).events, c.requests, c.index + 1, |c.requests|, Done)
    ensures Drive(c, outs).chain == c.(index := |c.requests|, pending := None)
  {
    SucceedsFromCursor(c, outs);
    DriveEnded(c, outs, c.index + 1, |c.requests|, Done);
    DriveFinishes(c, outs);
  }

  /** Once the first `m` completions leave nothing pending, the rest change
      nothing. */
  lemma {:induction false} DriveAfterIdle(c: ChainState, outs: seq<Outcome>, m: nat)
    requires m <= |outs| && Drive(c, outs[..m]).chain.pending.None?
    ensures Drive(c, outs) == Drive(c, outs[..m])
    decreases m
  {
    if m == 0 {
      DriveIdle(c, outs);
    } else {
      var step := Complete(c, outs[0]);
      assert outs[..m][0] == outs[0] && outs[..m][1..] == outs[1..][..m - 1];
      DriveAfterIdle(step.chain, outs[1..], m - 1);
    }
  }

  lemma SucceedsFromCursor(c: ChainState, outs: seq<Outcome>)
    requires Consistent(c) && c.pending.Some?
    requires |outs| >= |c.requests| - c.index
    requires c.ignoreErrors || Failed !in outs
    ensures Ended(Trace(c.requests, c.index, c.ignoreErrors, outs), c.requests, c.index + 1, |c.requests|, Done)
  {
    TraceSucceeds(c.requests, c.index, c.ignoreErrors, outs);
  }

  /** From the sub-request at the cursor, with errors not ignored, when the
      completion of `requests[k]` is the first that fails: the sub-requests up
      to `k` are executed in order, the chain ends with its error closure and
      unregisters once, `requests` is emptied and the cursor stays at `k`. */
  lemma {:induction false} DriveFails(c: ChainState, outs: seq<Outcome>, k: nat)
    requires Consistent(c) && c.pending.Some? && !c.ignoreErrors
    requires c.index <= k < |c.requests| && k - c.index < |outs|
    requires Failed !in outs[..k - c.index] && outs[k - c.index] == Failed
    ensures Ended(Drive(c, outs).events, c.requests, c.index + 1, k + 1, ChainError)
    ensures Drive(c, outs).chain == c.(requests := [], index := k, pending := None)
  {
    FailsFromCursor(c, outs, k);
    DriveEnded(c, outs, c.index + 1, k + 1, ChainError);
    DriveStops(c, outs, k);
  }

  lemma FailsFromCursor(c: ChainState, outs: seq<Outcome>, k: nat)
    requires Consistent(c) && c.pending.Some? && !c.ignoreErrors
    requires c.index <= k < |c.requests| && k - c.index < |outs|
    requires Failed !in outs[..k - c.index] && outs[k - c.index] == Failed
    ensures Ended(Trace(c.requests, c.index, c.ignoreErrors, outs), c.requests, c.index + 1, k + 1, ChainError)
  {
    TraceFailsFirst(c.requests, c.index, outs, k);
  }

  /** Whatever the outcomes, from the sub-request at the cursor: execution
      continues in order, at most one terminal callback fires and it is paired
      with one unregistration, and the chain is still waiting exactly when no
      terminal callback has fired. */
  lemma DriveAtMostOnce(c: ChainState, outs: seq<Outcome>)
    requires Consistent(c) && c.pending.Some?
    ensures var t := Drive(c, outs);
      && AtMostOnce(t.events, c.requests, c.index)
      && (t.chain.pending.Some? <==> Terminals(t.events) == [])
  {
    DriveTrace(c, outs);
    TraceAtMostOnce(c.requests, c.index, c.ignoreErrors, outs);
    AtMostOnceSame(Drive(c, outs).events, Trace(c.requests, c.index, c.ignoreErrors, outs),
                   c.requests, c.index);
    DriveWaiting(c, outs);
  }

  // Hands the fact about `b` on to the equal log `a`; the solver finds this
  // far sooner through a call than by rewriting the goal itself.
  lemma AtMostOnceSame(a: seq<Event>, b: seq<Event>, rs: seq<Request>, i: nat)
    requires i < |rs|
    requires a == b && AtMostOnce(b, rs, i)
    ensures AtMostOnce(a, rs, i)
  {
  }

  // ---------------------------------------------------------------------
  // Whole runs

  /** A run that executed `rs[0]` to `rs[hi - 1]` in order, fired the terminal
      callback `x` and no other, registered once and unregistered once, and
      ended with `x` and the unregistration. */
  predicate RunEnded(es: seq<Event>, rs: seq<Request>, hi: nat, x: Event)
    requires hi <= |rs|
  {
    && DispatchedInOrder(es, rs, 0, hi)
    && Terminals(es) == [x]
    && Occurrences(es, Register) == 1
    && Occurrences(es, Unregister) == 1
    && EndsWith(es, [x, Unregister])
  }

  /** The start of a run in front of a log `d` that ended with `x`; the other
      terminal callback `y` never occurs in it. */
  lemma JoinStart(rs: seq<Request>, es: seq<Event>, d: seq<Event>, hi: nat, x: Event, y: Event)
    requires 1 <= hi <= |rs| && Ended(d, rs, 1, hi, x)
    requires Selects(TerminalEvents, y) && y != x
    requires es == [Dispatch(0, rs[0]), Register] + d
    ensures RunEnded(es, rs, hi, x) && Occurrences(es, y) == 0
  {
    var head := [Dispatch(0, rs[0]), Register];
    StartLog(rs);
    FilterConcat(head, d, TerminalEvents);
    DispatchedJoin(head, d, rs, 0, 1, hi);
    EndsWithJoin(head, d, [x, Unregister]);
    NotInFilter(es, y, TerminalEvents);
  }

  /** When every sub-request succeeds, or errors are ignored: all of them are
      executed once each in append order, the chain's success closure fires
      exactly once with an empty body and empty data and its error closure
      never does, the chain registers once and unregisters once, the log ends
      with the success closure and the unregistration, and the cursor ends
      past the last request. */
  lemma AllSucceed(rs: seq<Request>, ignoreErrors: bool, outs: seq<Outcome>)
    requires |rs| >= 1 && |outs| >= |rs|
    requires ignoreErrors || Failed !in outs[..|rs|]
    ensures var t := Run(rs, ignoreErrors, outs);
      && RunEnded(t.events, rs, |rs|, Done)
      && Occurrences(t.events, ChainError) == 0
      && t.chain == ChainState(rs, |rs|, ignoreErrors, None)
  {
    var c := ChainState(rs, 0, ignoreErrors, Some(rs[0]));
    RunStart(rs, ignoreErrors, outs);
    DriveSucceeds(c, outs);
    JoinStart(rs, Run(rs, ignoreErrors, outs).events, Drive(c, outs).events, |rs|, Done, ChainError);
  }

  /** An event a projection keeps but that is not in the projection is not in the log. */
  lemma {:induction false} NotInFilter(es: seq<Event>, e: Event, p: Selector)
    requires Selects(p, e) && e !in Filter(es, p)
    ensures Occurrences(es, e) == 0
    decreases |es|
  {
    if es != [] {
      assert es == [es[0]] + es[1..];
      FilterConcat([es[0]], es[1..], p);
      FilterOne(es[0], p);
      NotInFilter(es[1..], e, p);
    }
  }

  /** When sub-request `k` is the first to fail and errors are not ignored:
      sub-requests `0` to `k` are executed in order and `k + 1` onwards never
      are, the chain's error closure fires exactly once and its success
      closure never, the chain registers once and unregisters once, the log
      ends with the error closure and the unregistration, `requests` is
      emptied with the cursor left at `k`, and a later `cancel` therefore
      cancels no sub-request. */
  lemma FatalError(rs: seq<Request>, outs: seq<Outcome>, k: nat)
    requires k < |rs| && k < |outs|
    requires Failed !in outs[..k] && outs[k] == Failed
    ensures var t := Run(rs, false, outs);
      && RunEnded(t.events, rs, k + 1, ChainError)
      && Occurrences(t.events, Done) == 0
      && t.chain == ChainState([], k, false, None)
      && Cancel(t.chain).events == [BaseCancel]
  {
    FailingRunLog(rs, outs, k);
    FailingRunState(rs, outs, k);
  }

  lemma FailingRunLog(rs: seq<Request>, outs: seq<Outcome>, k: nat)
    requires k < |rs| && k < |outs|
    requires Failed !in outs[..k] && outs[k] == Failed
    ensures RunEnded(Run(rs, false, outs).events, rs, k + 1, ChainError)
    ensures Occurrences(Run(rs, false, outs).events, Done) == 0
  {
    var c := ChainState(rs, 0, false, Some(rs[0]));
    RunStart(rs, false, outs);
    DriveFails(c, outs, k);
    JoinStart(rs, Run(rs, false, outs).events, Drive(c, outs).events, k + 1, ChainError, Done);
  }

  lemma FailingRunState(rs: seq<Request>, outs: seq<Outcome>, k: nat)
    requires k < |rs| && k < |outs|
    requires Failed !in outs[..k] && outs[k] == Failed
    ensures Run(rs, false, outs).chain == ChainState([], k, false, None)
  {
    RunStart(rs, false, outs);
    DriveStops(ChainState(rs, 0, false, Some(rs[0])), outs, k);
  }

  /** Whatever the outcomes of a run: execution follows append order, at most
      one terminal callback fires, each terminal callback is paired with one
      unregistration, the chain registers once, and a run without a terminal
      callback is still waiting for a sub-request. */
  predicate RunAtMostOnce(t: Transition, rs: seq<Request>)
  {
    var n := |Terminals(t.events)|;
    && n <= 1
    && Occurrences(t.events, Unregister) == n
    && Occurrences(t.events, Register) == 1
    && (n == 0 <==> t.chain.pending.Some?)
    && exists hi {:trigger DispatchedInOrder(t.events, rs, 0, hi)} ::
         0 < hi <= |rs| && DispatchedInOrder(t.events, rs, 0, hi)
  }

  /** Whatever the outcomes, a run of a non-empty chain satisfies
      `RunAtMostOnce`. */
  lemma AtMostOneTerminal(rs: seq<Request>, ignoreErrors: bool, outs: seq<Outcome>)
    requires |rs| >= 1
    ensures RunAtMostOnce(Run(rs, ignoreErrors, outs), rs)
  {
    var c := ChainState(rs, 0, ignoreErrors, Some(rs[0]));
    RunStart(rs, ignoreErrors, outs);
    DriveAtMostOnce(c, outs);
    JoinStartAtMostOnce(rs, Drive(c, outs));
  }

  /** A run of a chain that receives fewer completions than it has requests,
      none of them fatal, is still waiting: no terminal callback has fired,
      a sub-request is pending and the cursor has moved once per completion. */
  lemma ShortRunWaits(rs: seq<Request>, ignoreErrors: bool, outs: seq<Outcome>)
    requires |outs| < |rs|
    requires ignoreErrors || Failed !in outs
    ensures var t := Run(rs, ignoreErrors, outs);
      && Terminals(t.events) == []
      && t.chain.pending.Some?
      && t.chain.index == |outs|
  {
    var c := ChainState(rs, 0, ignoreErrors, Some(rs[0]));
    RunStart(rs, ignoreErrors, outs);
    DriveShort(c, outs);
    AtMostOneTerminal(rs, ignoreErrors, outs);
  }

  lemma JoinStartAtMostOnce(rs: seq<Request>, d: Transition)
    requires 1 <= |rs|
    requires AtMostOnce(d.events, rs, 0)
    requires d.chain.pending.Some? <==> Terminals(d.events) == []
    ensures RunAtMostOnce(Transition(d.chain, [Dispatch(0, rs[0]), Register] + d.events), rs)
  {
    var head := [Dispatch(0, rs[0]), Register];
    var hi :| 0 < hi <= |rs| && DispatchedInOrder(d.events, rs, 1, hi);
    StartLog(rs);
    FilterConcat(head, d.events, TerminalEvents);
    DispatchedJoin(head, d.events, rs, 0, 1, hi);
  }

  /** Every execution in a log whose executions are an in-order stretch of
      `rs` is the execution of a member of `rs`. */
  lemma InOrderSent(es: seq<Event>, rs: seq<Request>, lo: nat, hi: nat)
    requires lo <= hi <= |rs| && DispatchedInOrder(es, rs, lo, hi)
    ensures forall e :: e in Dispatches(es) ==> e.Dispatch? && e.sent in rs
  {
    var d := Dispatches(es);
    DispatchRunIndex(rs, lo, hi);
    forall e | e in d
      ensures e.Dispatch? && e.sent in rs
    {
      var j :| 0 <= j < |d| && d[j] == e;
      assert e == Dispatch(lo + j, rs[lo + j]);
    }
  }

  /** A run only ever executes requests of its chain. */
  lemma RunSent(rs: seq<Request>, ignoreErrors: bool, outs: seq<Outcome>)
    ensures forall e :: e in Dispatches(Run(rs, ignoreErrors, outs).events) ==> e.Dispatch? && e.sent in rs
  {
    var run := Run(rs, ignoreErrors, outs);
    if rs == [] {
      RunEmpty(ignoreErrors, outs);
      FilterNone(run.events, DispatchEvents);
    } else {
      AtMostOneTerminal(rs, ignoreErrors, outs);
      AtMostOnceSent(run, rs);
    }
  }

  lemma AtMostOnceSent(t: Transition, rs: seq<Request>)
    requires 1 <= |rs| && RunAtMostOnce(t, rs)
    ensures forall e :: e in Dispatches(t.events) ==> e.Dispatch? && e.sent in rs
  {
    var hi :| 0 < hi <= |rs| && DispatchedInOrder(t.events, rs, 0, hi);
    InOrderSent(t.events, rs, 0, hi);
  }

  /** `then` never extends the chain: running a chain built from `add` and
      `then` calls only ever executes requests that were passed to `add`. */
  lemma {:induction false} ThenNeverDispatched(ops: seq<Input>, ignoreErrors: bool, outs: seq<Outcome>)
    requires forall i :: 0 <= i < |ops| ==> Builder(ops[i])
    ensures var t := Replay(Fresh(ignoreErrors), ops + ([ExecuteCall(true, [])] + Completions(outs)));
      forall e :: e in Dispatches(t.events) ==> e.Dispatch? && e.sent in Appended(ops)
  {
    var rs := Appended(ops);
    var built := Replay(Fresh(ignoreErrors), ops);
    BuiltChain(ops, ignoreErrors);
    ReplayConcat(Fresh(ignoreErrors), ops, [ExecuteCall(true, [])] + Completions(outs));
    var run := Run(rs, ignoreErrors, outs);
    FilterConcat(built.events, run.events, DispatchEvents);
    RunSent(rs, ignoreErrors, outs);
  }

  /** A new chain built from `add` and `then` calls holds exactly the `add`ed
      requests, in call order, with the cursor at the start and nothing
      awaited. */
  lemma {:induction false} BuiltChain(ops: seq<Input>, ignoreErrors: bool)
    requires forall i :: 0 <= i < |ops| ==> Builder(ops[i])
    ensures Replay(Fresh(ignoreErrors), ops).chain == ChainState(Appended(ops), 0, ignoreErrors, None)
    ensures Dispatches(Replay(Fresh(ignoreErrors), ops).events) == []
  {
    ReplayBuild(Fresh(ignoreErrors), ops);
    assert Fresh(ignoreErrors).requests + Appended(ops) == Appended(ops);
    FilterNone(Replay(Fresh(ignoreErrors), ops).events, DispatchEvents);
  }

  // ---------------------------------------------------------------------
  // Registration and cancellation

  /** `execute` on a chain whose cursor is already past its end (an empty
      chain, or one executed again after a fatal error emptied it) reports
      success with an empty body, unregisters, and only then registers. */
  lemma ExhaustedExecute(c: ChainState, sync: seq<Outcome>)
    requires Consistent(c) && c.index >= |c.requests|
    ensures Execute(c, true, sync).1.events == [Done, Unregister, Register]
    ensures Execute(c, true, sync).1.chain == c
  {
    DriveIdle(c, sync);
  }

  /** When enough completions arrive synchronously inside `execute` and none
      is fatal, the chain unregisters from the manager before it registers,
      so its last call to the manager is a registration. */
  lemma SynchronousUnregisterFirst(rs: seq<Request>, ignoreErrors: bool, sync: seq<Outcome>)
    requires |rs| >= 1 && |sync| >= |rs|
    requires ignoreErrors || Failed !in sync[..|rs|]
    ensures var res := Execute(ChainState(rs, 0, ignoreErrors, None), true, sync);
      res.0 && RegisteredLast(res.1.events)
  {
    var c := ChainState(rs, 0, ignoreErrors, Some(rs[0]));
    DriveSucceeds(c, sync);
    var d := Drive(c, sync).events;
    RegisterAfter(Dispatch(0, rs[0]), d, rs, 1, |rs|);
    RegisteredLastSame(Execute(ChainState(rs, 0, ignoreErrors, None), true, sync).1.events,
                       [Dispatch(0, rs[0])] + d + [Register]);
  }

  /** A log that succeeded, unregistered, and registered last of all. */
  predicate RegisteredLast(es: seq<Event>)
  {
    && |es| >= 2
    && es[|es| - 2] == Unregister
    && es[|es| - 1] == Register
    && Occurrences(es, Register) == 1
    && Occurrences(es, Unregister) == 1
    && Terminals(es) == [Done]
  }

  lemma RegisterAfter(first: Event, d: seq<Event>, rs: seq<Request>, lo: nat, hi: nat)
    requires first.Dispatch? && lo <= hi <= |rs| && Ended(d, rs, lo, hi, Done)
    ensures RegisteredLast([first] + d + [Register])
  {
    RegisterAfterCounts(first, d);
    RegisterAfterTerminals(first, d);
  }

  lemma RegisterAfterCounts(first: Event, d: seq<Event>)
    requires first.Dispatch? && |d| >= 2 && d[|d| - 1] == Unregister
    requires Occurrences(d, Unregister) == 1 && Occurrences(d, Register) == 0
    ensures var es := [first] + d + [Register];
      && |es| >= 2 && es[|es| - 2] == Unregister && es[|es| - 1] == Register
      && Occurrences(es, Register) == 1 && Occurrences(es, Unregister) == 1
  {
    var es := [first] + d + [Register];
    assert es[|es| - 2] == d[|d| - 1];
  }

  lemma RegisterAfterTerminals(first: Event, d: seq<Event>)
    requires first.Dispatch? && Terminals(d) == [Done]
    ensures Terminals([first] + d + [Register]) == [Done]
  {
    FilterConcat([first], d, TerminalEvents);
    FilterConcat([first] + d, [Register], TerminalEvents);
    FilterOne(first, TerminalEvents);
    FilterOne(Register, TerminalEvents);
  }

  // Hands the fact about `b` on to the equal log `a`; the solver finds this
  // far sooner through a call than by rewriting the goal itself.
  lemma RegisteredLastSame(a: seq<Event>, b: seq<Event>)
    requires a == b && RegisteredLast(b)
    ensures RegisteredLast(a)
  {
  }

  /** `cancel` sets no flag: a chain cancelled right after `execute` cancels
      every sub-request, and still runs to its end, firing its success
      closure, when those sub-requests go on completing successfully. */
  lemma CancelDoesNotStopChain(rs: seq<Request>, ignoreErrors: bool, outs: seq<Outcome>)
    requires |rs| >= 1 && |outs| >= |rs|
    requires Failed !in outs[..|rs|]
    ensures var t := Replay(ChainState(rs, 0, ignoreErrors, None),
                            [ExecuteCall(true, []), CancelCall] + Completions(outs));
      CancelledThenDone(t.events, rs)
  {
    var c := ChainState(rs, 0, ignoreErrors, Some(rs[0]));
    CancelledRun(rs, ignoreErrors, outs);
    DriveSucceeds(c, outs);
    var head := [Dispatch(0, rs[0]), Register] + Cancel(c).events;
    CancelledHead(c);
    CancelledJoin(head, Drive(c, outs).events, rs, 1, |rs|);
    CancelledSame(Replay(ChainState(rs, 0, ignoreErrors, None),
                         [ExecuteCall(true, []), CancelCall] + Completions(outs)).events,
                  head + Drive(c, outs).events, rs);
  }

  /** `execute`, then `cancel`, then completions: the start of a run, the
      cancellations, and then whatever the completions drive. */
  lemma CancelledRun(rs: seq<Request>, ignoreErrors: bool, outs: seq<Outcome>)
    requires |rs| >= 1
    ensures var c := ChainState(rs, 0, ignoreErrors, Some(rs[0]));
      Replay(ChainState(rs, 0, ignoreErrors, None), [ExecuteCall(true, []), CancelCall] + Completions(outs)).events
        == [Dispatch(0, rs[0]), Register] + Cancel(c).events + Drive(c, outs).events
  {
    var c0 := ChainState(rs, 0, ignoreErrors, None);
    var c := c0.(pending := Some(rs[0]));
    ReplayConcat(c0, [ExecuteCall(true, []), CancelCall], Completions(outs));
    ExecuteThenCancel(rs, ignoreErrors);
    ReplayCompletions(c, outs);
  }

  lemma ExecuteThenCancel(rs: seq<Request>, ignoreErrors: bool)
    requires |rs| >= 1
    ensures var c := ChainState(rs, 0, ignoreErrors, Some(rs[0]));
      Replay(ChainState(rs, 0, ignoreErrors, None), [ExecuteCall(true, []), CancelCall])
        == Transition(c, [Dispatch(0, rs[0]), Register] + Cancel(c).events)
  {
    var c0 := ChainState(rs, 0, ignoreErrors, None);
    var c := c0.(pending := Some(rs[0]));
    assert Execute(c0, true, []).1 == Transition(c, [Dispatch(0, rs[0]), Register]);
    assert [ExecuteCall(true, []), CancelCall][1..] == [CancelCall];
    assert Replay(c, [CancelCall]) == Transition(c, Cancel(c).events + []);
    assert Cancel(c).events + [] == Cancel(c).events;
  }

  /** Every sub-request was cancelled, and the chain still succeeded, once,
      and unregistered last. */
  predicate CancelledThenDone(es: seq<Event>, rs: seq<Request>)
  {
    && (forall i :: 0 <= i < |rs| ==> CancelSub(rs[i]) in es)
    && Terminals(es) == [Done]
    && EndsWith(es, [Done, Unregister])
  }

  /** The log of `execute` followed by `cancel`. */
  lemma CancelledHead(c: ChainState)
    requires c.index == 0 && |c.requests| >= 1
    ensures var head := [Dispatch(0, c.requests[0]), Register] + Cancel(c).events;
      && (forall i :: 0 <= i < |c.requests| ==> CancelSub(c.requests[i]) in head)
      && Terminals(head) == []
  {
    var rs := c.requests;
    var head := [Dispatch(0, rs[0]), Register] + Cancel(c).events;
    forall i | 0 <= i < |rs|
      ensures CancelSub(rs[i]) in head
    {
      assert head[2 + i] == CancelSub(rs[i]);
    }
    FilterNone(head, TerminalEvents);
  }

  lemma CancelledJoin(head: seq<Event>, d: seq<Event>, rs: seq<Request>, lo: nat, hi: nat)
    requires lo <= hi <= |rs| && Ended(d, rs, lo, hi, Done)
    requires forall i :: 0 <= i < |rs| ==> CancelSub(rs[i]) in head
    requires Terminals(head) == []
    ensures CancelledThenDone(head + d, rs)
  {
    FilterConcat(head, d, TerminalEvents);
    EndsWithJoin(head, d, [Done, Unregister]);
  }

  // Hands the fact about `b` on to the equal log `a`; the solver finds this
  // far sooner through a call than by rewriting the goal itself.
  lemma CancelledSame(a: seq<Event>, b: seq<Event>, rs: seq<Request>)
    requires a == b && CancelledThenDone(b, rs)
    ensures CancelledThenDone(a, rs)
  {
  }
}

=== FILE: steps.dfy ===
/** Facts about single steps of the chained request: how runs compose, what
    one completion emits in each of its three cases, and the invariants every
    operation keeps (the cursor only moves forward, by one per advancing
    completion, and stays within bounds until a fatal error).
 */
module ChainSteps {
  import opened Events
  import opened ChainedRequest

  // ---------------------------------------------------------------------
  // Composition of runs

  lemma ReplayConcat(c: ChainState, a: seq<Input>, b: seq<Input>)
    ensures var ta := Replay(c, a);
      var tb := Replay(ta.chain, b);
      Replay(c, a + b) == Transition(tb.chain, ta.events + tb.events)
  {
    FoldConcat(Apply, c, a, b);
  }

  lemma {:induction false} FoldConcat(f: (ChainState, Input) -> Transition, c: ChainState, a: seq<Input>, b: seq<Input>)
    ensures var ta := Fold(f, c, a);
      var tb := Fold(f, ta.chain, b);
      Fold(f, c, a + b) == Transition(tb.chain, ta.events + tb.events)
    decreases |a|
  {
    if a == [] {
      assert a + b == b;
    } else {
      assert (a + b)[0] == a[0];
      assert (a + b)[1..] == a[1..] + b;
      FoldConcat(f, f(c, a[0]).chain, a[1..], b);
    }
  }

  /** Delivering completions as inputs is the same as driving the chain with them. */
  lemma {:induction false} ReplayCompletions(c: ChainState, outs: seq<Outcome>)
    ensures Replay(c, Completions(outs)) == Drive(c, outs)
    decreases |outs|
  {
    if outs != [] {
      assert Completions(outs)[1..] == Completions(outs[1..]);
      ReplayCompletions(Complete(c, outs[0]).chain, outs[1..]);
    }
  }

  /** With nothing pending, completions have nothing to fire. */
  lemma {:induction false} DriveIdle(c: ChainState, outs: seq<Outcome>)
    requires c.pending.None?
    ensures Drive(c, outs) == Transition(c, [])
    decreases |outs|
  {
    if outs != [] {
      DriveIdle(c, outs[1..]);
    }
  }

  lemma EndsWithJoin(a: seq<Event>, b: seq<Event>, tail: seq<Event>)
    requires EndsWith(b, tail)
    ensures EndsWith(a + b, tail)
  {
    assert (a + b)[|a + b| - |tail|..] == b[|b| - |tail|..];
  }

  // ---------------------------------------------------------------------
  // One completion

  /** The pass-through closure is only that: no execution, no terminal
      callback, no manager call. */
  lemma PassThroughQuiet(r: Request, o: Outcome)
    ensures Dispatches(PassThrough(r, o)) == []
    ensures Terminals(PassThrough(r, o)) == []
    ensures Occurrences(PassThrough(r, o), Unregister) == 0
    ensures Occurrences(PassThrough(r, o), Register) == 0
  {
    var p := PassThrough(r, o);
    if p != [] {
      assert p == [p[0]];
      FilterOne(p[0], DispatchEvents);
      FilterOne(p[0], TerminalEvents);
    }
  }

  /** A completion that advances while sub-requests remain executes exactly the
      next one and nothing else of note. */
  lemma StepToNext(c: ChainState, o: Outcome)
    requires c.pending.Some? && Advances(c, o) && c.index + 1 < |c.requests|
    ensures var t := Complete(c, o);
      && Dispatches(t.events) == [Dispatch(c.index + 1, c.requests[c.index + 1])]
      && Terminals(t.events) == []
      && Occurrences(t.events, Unregister) == 0
      && Occurrences(t.events, Register) == 0
      && t.chain == c.(index := c.index + 1, pending := Some(c.requests[c.index + 1]))
  {
    var t := Complete(c, o);
    var pass := PassThrough(c.pending.value, o);
    var x := Dispatch(c.index + 1, c.requests[c.index + 1]);
    assert t.events[|pass|..] == [x];
    assert t.events == pass + [x];
    PassThroughQuiet(c.pending.value, o);
    AdvancingLog(pass, x);
  }

  /** The log `pass + [x]` of a completion that executes the next sub-request. */
  lemma AdvancingLog(pass: seq<Event>, x: Event)
    requires x.Dispatch?
    requires Dispatches(pass) == [] && Terminals(pass) == []
    requires Occurrences(pass, Unregister) == 0 && Occurrences(pass, Register) == 0
    ensures Dispatches(pass + [x]) == [x]
    ensures Terminals(pass + [x]) == []
    ensures Occurrences(pass + [x], Unregister) == 0 && Occurrences(pass + [x], Register) == 0
  {
    FilterConcat(pass, [x], DispatchEvents);
    FilterConcat(pass, [x], TerminalEvents);
    FilterOne(x, DispatchEvents);
    FilterOne(x, TerminalEvents);
  }

  /** The log `pass + [x, Unregister]` of a completion that ends the chain. */
  lemma FinishingLog(pass: seq<Event>, x: Event)
    requires Dispatches(pass) == [] && Terminals(pass) == []
    requires Occurrences(pass, Unregister) == 0 && Occurrences(pass, Register) == 0
    requires Selects(TerminalEvents, x)
    ensures var es := pass + [x, Unregister];
      && Dispatches(es) == []
      && Terminals(es) == [x]
      && Occurrences(es, Unregister) == 1
      && Occurrences(es, Register) == 0
      && EndsWith(es, [x, Unregister])
  {
    FinishingProjection(pass, x, DispatchEvents);
    FinishingProjection(pass, x, TerminalEvents);
  }

  lemma FinishingProjection(pass: seq<Event>, x: Event, p: Selector)
    requires !Selects(p, Unregister)
    ensures Filter(pass + [x, Unregister], p) == Filter(pass, p) + (if Selects(p, x) then [x] else [])
  {
    assert [x, Unregister] == [x] + [Unregister];
    FilterConcat([x], [Unregister], p);
    FilterOne(x, p);
    FilterOne(Unregister, p);
    FilterConcat(pass, [x, Unregister], p);
  }

  /** A completion that advances past the last sub-request fires the chain's
      success closure once and then unregisters. */
  lemma StepToEnd(c: ChainState, o: Outcome)
    requires c.pending.Some? && Advances(c, o) && c.index + 1 >= |c.requests|
    ensures var t := Complete(c, o);
      && Dispatches(t.events) == []
      && Terminals(t.events) == [Done]
      && Occurrences(t.events, Unregister) == 1
      && Occurrences(t.events, Register) == 0
      && EndsWith(t.events, [Done, Unregister])
      && t.chain == c.(index := c.index + 1, pending := None)
  {
    var t := Complete(c, o);
    var pass := PassThrough(c.pending.value, o);
    assert t.events == pass + [Done, Unregister];
    PassThroughQuiet(c.pending.value, o);
    FinishingLog(pass, Done);
  }

  /** A failed completion with errors not ignored fires the chain's error
      closure once, unregisters, and empties `requests` without moving the
      cursor. */
  lemma StepFatal(c: ChainState)
    requires c.pending.Some? && !c.ignoreErrors
    ensures var t := Complete(c, Failed);
      && Dispatches(t.events) == []
      && Terminals(t.events) == [ChainError]
      && Occurrences(t.events, Unregister) == 1
      && Occurrences(t.events, Register) == 0
      && EndsWith(t.events, [ChainError, Unregister])
      && t.chain == c.(requests := [], pending := None)
  {
    var t := Complete(c, Failed);
    var pass := PassThrough(c.pending.value, Failed);
    assert t.events == pass + [ChainError, Unregister];
    PassThroughQuiet(c.pending.value, Failed);
    FinishingLog(pass, ChainError);
  }

  /** With errors ignored, a failed completion continues exactly like a
      successful one: the same next state and the same effects, except that
      the caller's error closure fires in place of its success closure. */
  lemma IgnoredErrorContinues(c: ChainState)
    requires c.ignoreErrors && c.pending.Some?
    ensures Complete(c, Failed).chain == Complete(c, Succeeded).chain
    ensures var r := c.pending.value;
      Complete(c, Failed).events
        == PassThrough(r, Failed) + Complete(c, Succeeded).events[|PassThrough(r, Succeeded)|..]
  {
  }

  /** Within one completion the caller's closure for that sub-request fires
      first: before the next sub-request is executed, before any terminal
      callback and before the manager is told anything, ignored errors
      included. */
  lemma PassThroughFirst(c: ChainState, o: Outcome)
    requires c.pending.Some?
    ensures var r := c.pending.value;
      var es := Complete(c, o).events;
      && (o == Succeeded && r.hasSuccess ==> es[0] == PassSuccess(r))
      && (o == Failed && r.hasError ==> es[0] == PassError(r))
      && (forall i :: 0 < i < |es| ==> !es[i].PassSuccess? && !es[i].PassError?)
    ensures var r := c.pending.value;
      var es := Complete(c, o).events;
      forall i :: 0 <= i < |es| && (es[i].PassSuccess? || es[i].PassError?) ==>
        i == 0 && [es[0]] == PassThrough(r, o)
  {
    var r := c.pending.value;
    if !Advances(c, o) {
      PassedAtHead(r, o, [ChainError, Unregister]);
    } else if c.index + 1 < |c.requests| {
      PassedAtHead(r, o, [Dispatch(c.index + 1, c.requests[c.index + 1])]);
    } else {
      PassedAtHead(r, o, [Done, Unregister]);
    }
  }

  /** The caller's closure followed by a tail without caller closures: the
      closure, if any, is the only one and comes first. */
  lemma PassedAtHead(r: Request, o: Outcome, tail: seq<Event>)
    requires forall j :: 0 <= j < |tail| ==> !tail[j].PassSuccess? && !tail[j].PassError?
    ensures var es := PassThrough(r, o) + tail;
      && (o == Succeeded && r.hasSuccess ==> es[0] == PassSuccess(r))
      && (o == Failed && r.hasError ==> es[0] == PassError(r))
      && (forall i :: 0 < i < |es| ==> !es[i].PassSuccess? && !es[i].PassError?)
      && (forall i :: 0 <= i < |es| && (es[i].PassSuccess? || es[i].PassError?) ==>
            i == 0 && [es[0]] == PassThrough(r, o))
  {
  }

  // ---------------------------------------------------------------------
  // Invariants

  lemma {:induction false} DriveConsistent(c: ChainState, outs: seq<Outcome>)
    requires Consistent(c)
    ensures Consistent(Drive(c, outs).chain)
    decreases |outs|
  {
    if outs != [] {
      DriveConsistent(Complete(c, outs[0]).chain, outs[1..]);
    }
  }

  /** Every operation keeps the chain waiting, if at all, for the sub-request at
      the cursor. */
  lemma ApplyConsistent(c: ChainState, input: Input)
    requires Consistent(c)
    ensures Consistent(Apply(c, input).chain)
  {
    match input
    case ExecuteCall(baseOk, sync) =>
      if baseOk {
        DriveConsistent(ExecuteNext(c).chain, sync);
      }
    case _ =>
  }

  lemma {:induction false} ReplayConsistent(c: ChainState, inputs: seq<Input>)
    requires Consistent(c)
    ensures Consistent(Replay(c, inputs).chain)
    decreases |inputs|
  {
    if inputs != [] {
      ApplyConsistent(c, inputs[0]);
      ReplayConsistent(Apply(c, inputs[0]).chain, inputs[1..]);
    }
  }

  /** Each completion moves the cursor by at most one, so a sequence of them
      never moves it back and never by more than their number. */
  lemma {:induction false} DriveIndex(c: ChainState, outs: seq<Outcome>)
    ensures c.index <= Drive(c, outs).chain.index <= c.index + |outs|
    decreases |outs|
  {
    if outs != [] {
      DriveIndex(Complete(c, outs[0]).chain, outs[1..]);
    }
  }

  /** Only completions move the cursor, and each moves it by exactly one when
      it advances the chain. */
  lemma ApplyIndex(c: ChainState, input: Input)
    ensures var t := Apply(c, input);
      && c.index <= t.chain.index
      && (input.AddCall? || input.ThenCall? || input.CancelCall? ==> t.chain.index == c.index)
      && (input.Completion? ==>
            t.chain.index == c.index + (if c.pending.Some? && Advances(c, input.o) then 1 else 0))
  {
    if input.ExecuteCall? && input.baseOk {
      DriveIndex(ExecuteNext(c).chain, input.sync);
    }
  }

  lemma {:induction false} ReplayIndexMonotone(c: ChainState, inputs: seq<Input>)
    ensures c.index <= Replay(c, inputs).chain.index
    decreases |inputs|
  {
    if inputs != [] {
      ApplyIndex(c, inputs[0]);
      ReplayIndexMonotone(Apply(c, inputs[0]).chain, inputs[1..]);
    }
  }

  /** The cursor stays within `0 ..= |requests|` under any completions, except
      that a fatal error empties `requests` while keeping the cursor. */
  lemma {:induction false} DriveBounded(c: ChainState, outs: seq<Outcome>)
    requires Consistent(c) && c.index <= |c.requests|
    ensures var t := Drive(c, outs);
      t.chain.index <= |t.chain.requests|
      || (t.chain.requests == [] && ChainError in t.events && t.chain.pending.None?)
    decreases |outs|
  {
    if outs != [] {
      var step := Complete(c, outs[0]);
      if c.pending.Some? && !Advances(c, outs[0]) {
        DriveIdle(step.chain, outs[1..]);
        assert step.events[|PassThrough(c.pending.value, outs[0])|..][0] == ChainError;
      } else {
        DriveBounded(step.chain, outs[1..]);
      }
    }
  }
}

=== FILE: traces.dfy ===
/** The effect log of a chain that is waiting for one of its sub-requests,
    written out directly as a function of its requests and the completions
    delivered to it, and what such logs contain: which sub-requests get
    executed and in which order, which terminal callback fires, and when the
    chain unregisters.
 */
module ChainTraces {
  import opened Events
  import opened ChainedRequest
  import opened ChainSteps

  /** The effects of delivering `outs` to a chain waiting for `rs[i]`: the
      caller's closure of `rs[i]` fires; then the chain stops with its error
      closure, executes `rs[i + 1]` and goes on, or finishes with its success
      closure. Stopping and finishing end with the unregistration. */
  function Trace(rs: seq<Request>, i: nat, ignoreErrors: bool, outs: seq<Outcome>): seq<Event>
    requires i < |rs|
    decreases |outs|
  {
    if outs == [] then []
    else
      var pass := PassThrough(rs[i], outs[0]);
      if outs[0] == Failed && !ignoreErrors then pass + [ChainError, Unregister]
      else if i + 1 < |rs| then pass + [Dispatch(i + 1, rs[i + 1])] + Trace(rs, i + 1, ignoreErrors, outs[1..])
      else pass + [Done, Unregister]
  }

  /** When no completion fails, whether errors are ignored makes no difference. */
  lemma {:induction false} TraceAdvancing(rs: seq<Request>, i: nat, ignoreErrors: bool, outs: seq<Outcome>)
    requires i < |rs|
    requires ignoreErrors || Failed !in outs
    ensures Trace(rs, i, ignoreErrors, outs) == Trace(rs, i, true, outs)
    decreases |outs|
  {
    if outs != [] && i + 1 < |rs| {
      assert outs == [outs[0]] + outs[1..];
      TraceAdvancing(rs, i + 1, ignoreErrors, outs[1..]);
    }
  }

  /** A log that ended with the terminal callback `x`: it executed `rs[lo]`,
      ..., `rs[hi - 1]` in order, fired `x` and no other terminal callback,
      unregistered once, never registered, and its last two effects are `x`
      and the unregistration. */
  predicate Ended(es: seq<Event>, rs: seq<Request>, lo: nat, hi: nat, x: Event)
    requires lo <= hi <= |rs|
  {
    && DispatchedInOrder(es, rs, lo, hi)
    && Terminals(es) == [x]
    && Occurrences(es, Unregister) == 1
    && Occurrences(es, Register) == 0
    && EndsWith(es, [x, Unregister])
  }

  /** The effects of one completion that executes the next sub-request,
      `rs[i + 1]`, and does nothing else of note. */
  predicate Advanced(a: seq<Event>, rs: seq<Request>, i: nat)
    requires i + 1 < |rs|
  {
    && Dispatches(a) == [Dispatch(i + 1, rs[i + 1])]
    && Terminals(a) == []
    && Occurrences(a, Unregister) == 0
    && Occurrences(a, Register) == 0
  }

  lemma AdvancedStep(rs: seq<Request>, i: nat, o: Outcome)
    requires i + 1 < |rs|
    ensures Advanced(PassThrough(rs[i], o) + [Dispatch(i + 1, rs[i + 1])], rs, i)
  {
    PassThroughQuiet(rs[i], o);
    AdvancingLog(PassThrough(rs[i], o), Dispatch(i + 1, rs[i + 1]));
  }

  lemma EndedStep(rs: seq<Request>, i: nat, o: Outcome, x: Event)
    requires i < |rs| && Selects(TerminalEvents, x)
    ensures Ended(PassThrough(rs[i], o) + [x, Unregister], rs, i + 1, i + 1, x)
  {
    PassThroughQuiet(rs[i], o);
    FinishingLog(PassThrough(rs[i], o), x);
  }

  /** An advancing completion in front of a log that ended. */
  lemma JoinEnded(a: seq<Event>, rest: seq<Event>, rs: seq<Request>, i: nat, hi: nat, x: Event)
    requires i + 2 <= hi <= |rs|
    requires Advanced(a, rs, i)
    requires Ended(rest, rs, i + 2, hi, x)
    ensures Ended(a + rest, rs, i + 1, hi, x)
  {
    FilterConcat(a, rest, TerminalEvents);
    assert DispatchedInOrder(a, rs, i + 1, i + 2);
    DispatchedJoin(a, rest, rs, i + 1, i + 2, hi);
    EndsWithJoin(a, rest, [x, Unregister]);
  }

  /** The effects of a completion that executes `rs[i + 1]`, in front of a log
      that then ended. */
  lemma AdvanceThenEnded(rs: seq<Request>, i: nat, o: Outcome, rest: seq<Event>, hi: nat, x: Event)
    requires i + 2 <= hi <= |rs| && Ended(rest, rs, i + 2, hi, x)
    ensures Ended(PassThrough(rs[i], o) + [Dispatch(i + 1, rs[i + 1])] + rest, rs, i + 1, hi, x)
  {
    AdvancedStep(rs, i, o);
    JoinEnded(PassThrough(rs[i], o) + [Dispatch(i + 1, rs[i + 1])], rest, rs, i, hi, x);
  }

  /** With errors ignored and enough completions, the chain executes every
      request after `rs[i]` in order and ends with its success closure. */
  lemma {:induction false} IgnoringSucceeds(rs: seq<Request>, i: nat, outs: seq<Outcome>)
    requires i < |rs| && |outs| >= |rs| - i
    ensures Ended(Trace(rs, i, true, outs), rs, i + 1, |rs|, Done)
    decreases |rs| - i
  {
    if i + 1 < |rs| {
      IgnoringSucceeds(rs, i + 1, outs[1..]);
      AdvanceThenEnded(rs, i, outs[0], Trace(rs, i + 1, true, outs[1..]), |rs|, Done);
    } else {
      EndedStep(rs, i, outs[0], Done);
    }
  }

  /** When every completion advances (none fails, or errors are ignored) and
      there are enough of them, the chain executes every request after `rs[i]`
      in order and ends with its success closure. */
  lemma TraceSucceeds(rs: seq<Request>, i: nat, ignoreErrors: bool, outs: seq<Outcome>)
    requires i < |rs| && |outs| >= |rs| - i
    requires ignoreErrors || Failed !in outs
    ensures Ended(Trace(rs, i, ignoreErrors, outs), rs, i + 1, |rs|, Done)
  {
    TraceAdvancing(rs, i, ignoreErrors, outs);
    IgnoringSucceeds(rs, i, outs);
    EndedSame(Trace(rs, i, ignoreErrors, outs), Trace(rs, i, true, outs), rs, i + 1, |rs|, Done);
  }

  // Hands the fact about `b` on to the equal log `a`; the solver finds this
  // far sooner through a call than by rewriting the goal itself.
  lemma EndedSame(a: seq<Event>, b: seq<Event>, rs: seq<Request>, lo: nat, hi: nat, x: Event)
    requires lo <= hi <= |rs|
    requires a == b && Ended(b, rs, lo, hi, x)
    ensures Ended(a, rs, lo, hi, x)
  {
  }

  /** The first failure among `outs` is at position `n`. */
  predicate FailsFirstAt(outs: seq<Outcome>, n: nat)
    decreases n
  {
    n < |outs| && if n == 0 then outs[0] == Failed else outs[0] == Succeeded && FailsFirstAt(outs[1..], n - 1)
  }

  /** Outcomes with no failure before position `n` and a failure at `n` fail
      first at `n`. */
  lemma {:induction false} FirstFailure(outs: seq<Outcome>, n: nat)
    requires n < |outs| && Failed !in outs[..n] && outs[n] == Failed
    ensures FailsFirstAt(outs, n)
    decreases n
  {
    if n > 0 {
      assert outs[0] == outs[..n][0];
      assert outs[1..][..n - 1] == outs[..n][1..];
      FirstFailure(outs[1..], n - 1);
    }
  }

  /** When errors are not ignored and the completion of `rs[k]` is the first
      that fails, the chain executes the requests after `rs[i]` up to `rs[k]`
      in order and ends with its error closure. */
  lemma {:induction false} TraceFails(rs: seq<Request>, i: nat, outs: seq<Outcome>, k: nat)
    requires i <= k < |rs| && FailsFirstAt(outs, k - i)
    ensures Ended(Trace(rs, i, false, outs), rs, i + 1, k + 1, ChainError)
    decreases k - i, 1
  {
    if k == i {
      EndedStep(rs, i, outs[0], ChainError);
    } else {
      FailsLater(rs, i, outs, k);
    }
  }

  lemma {:induction false} FailsLater(rs: seq<Request>, i: nat, outs: seq<Outcome>, k: nat)
    requires i < k < |rs| && FailsFirstAt(outs, k - i)
    ensures Ended(Trace(rs, i, false, outs), rs, i + 1, k + 1, ChainError)
    decreases k - i, 0
  {
    assert outs[0] == Succeeded && FailsFirstAt(outs[1..], k - (i + 1));
    TraceFails(rs, i + 1, outs[1..], k);
    AdvanceThenEnded(rs, i, outs[0], Trace(rs, i + 1, false, outs[1..]), k + 1, ChainError);
  }

  /** `TraceFails` for a first failure stated by position. */
  lemma TraceFailsFirst(rs: seq<Request>, i: nat, outs: seq<Outcome>, k: nat)
    requires i <= k < |rs| && k - i < |outs|
    requires Failed !in outs[..k - i] && outs[k - i] == Failed
    ensures Ended(Trace(rs, i, false, outs), rs, i + 1, k + 1, ChainError)
  {
    FirstFailure(outs, k - i);
    TraceFails(rs, i, outs, k);
  }

  /** Whatever the outcomes: the requests after `rs[i]` executed so far form
      an in-order stretch, at most one terminal callback has fired, the chain
      has unregistered exactly as often, and it has never registered. */
  predicate AtMostOnce(es: seq<Event>, rs: seq<Request>, i: nat)
    requires i < |rs|
  {
    var n := |Terminals(es)|;
    && n <= 1
    && Occurrences(es, Unregister) == n
    && Occurrences(es, Register) == 0
    && exists hi {:trigger DispatchedInOrder(es, rs, i + 1, hi)} ::
         i < hi <= |rs| && DispatchedInOrder(es, rs, i + 1, hi)
  }

  lemma {:induction false} TraceAtMostOnce(rs: seq<Request>, i: nat, ignoreErrors: bool, outs: seq<Outcome>)
    requires i < |rs|
    ensures AtMostOnce(Trace(rs, i, ignoreErrors, outs), rs, i)
    decreases |outs|, 1
  {
    if outs == [] {
      assert DispatchedInOrder([], rs, i + 1, i + 1);
    } else if outs[0] == Failed && !ignoreErrors {
      EndedStep(rs, i, outs[0], ChainError);
      EndedAtMostOnce(PassThrough(rs[i], outs[0]) + [ChainError, Unregister], rs, i, ChainError);
    } else if i + 1 < |rs| {
      AdvancedAtMostOnce(rs, i, ignoreErrors, outs);
    } else {
      EndedStep(rs, i, outs[0], Done);
      EndedAtMostOnce(PassThrough(rs[i], outs[0]) + [Done, Unregister], rs, i, Done);
    }
  }

  lemma EndedAtMostOnce(es: seq<Event>, rs: seq<Request>, i: nat, x: Event)
    requires i < |rs| && Ended(es, rs, i + 1, i + 1, x)
    ensures AtMostOnce(es, rs, i)
  {
    assert DispatchedInOrder(es, rs, i + 1, i + 1);
  }

  lemma {:induction false} AdvancedAtMostOnce(rs: seq<Request>, i: nat, ignoreErrors: bool, outs: seq<Outcome>)
    requires i + 1 < |rs| && outs != [] && (outs[0] == Succeeded || ignoreErrors)
    ensures AtMostOnce(Trace(rs, i, ignoreErrors, outs), rs, i)
    decreases |outs|, 0
  {
    var a := PassThrough(rs[i], outs[0]) + [Dispatch(i + 1, rs[i + 1])];
    var rest := Trace(rs, i + 1, ignoreErrors, outs[1..]);
    assert Trace(rs, i, ignoreErrors, outs) == a + rest;
    TraceAtMostOnce(rs, i + 1, ignoreErrors, outs[1..]);
    AdvancedStep(rs, i, outs[0]);
    JoinAtMostOnce(a, rest, rs, i);
  }

  /** An advancing completion in front of any log. */
  lemma JoinAtMostOnce(a: seq<Event>, rest: seq<Event>, rs: seq<Request>, i: nat)
    requires i + 1 < |rs|
    requires Advanced(a, rs, i)
    requires AtMostOnce(rest, rs, i + 1)
    ensures AtMostOnce(a + rest, rs, i)
  {
    var hi :| i + 1 < hi <= |rs| && DispatchedInOrder(rest, rs, i + 2, hi);
    FilterConcat(a, rest, TerminalEvents);
    assert DispatchedInOrder(a, rs, i + 1, i + 2);
    DispatchedJoin(a, rest, rs, i + 1, i + 2, hi);
  }
}
